=== FILE: README.md ===
# Westbrook booking engine, modelled in Dafny

This project models the booking engine of the Westbrook Hotel site: the
`WestbrookBookingSystem` class in `javascript/book-now.js`, with the DOM
and timers removed. What remains is a single-user state machine over a
plain record:

- **Availability** (`availability.dfy`): the per-day status rule (0 rooms
  booked, 1–2 limited, 3+ available), the 90-day generator with its
  weekend/weekday draws and the blackout offsets 15, 30 and 45, and the
  date-range check that rejects a stay on a single blocked night and
  collects the unavailable and limited nights in ascending order.
- **Pricing** (`pricing.dfy`): base rate × nights, a 1.1 multiplier when
  the stay is limited, 7.5% tax, rounding only for display.
- **Guest validation** (`guest.dfy`): JavaScript `trim`, the e-mail
  pattern `^[^\s@]+@[^\s@]+\.[^\s@]+$` (a decision procedure proved
  equivalent to the pattern read literally), and the three independent
  field checks.
- **Booking record** (`booking.dfy`): the record, its defaults, and the
  recomputation of nights and totals from the dates.
- **Storage** (`storage.dfy`): save with a timestamp, load only while
  younger than 3,600,000 ms, merge field by field over the current record.
- **Wizard** (`wizard.dfy`): Review (1) → Guest Info (2) → Payment (3) →
  Confirmation (4); navigation, the guest gate, the payment/pay-later
  transition with its assign-once booking ID, reloads triggered by another
  tab, session start, and whole action traces.

Dates are integer day indices, so nights are `checkout − checkin`. Money
is an exact `real`. The random draws, the clock (`now`), the payment
outcome and the fresh booking ID are inputs to the functions.

Behaviours of `book-now.js` that the model keeps as written:

- `prevStep` goes back from Confirmation (4) to Payment (3); only the
  rendered page lacks a Back button there (`Wizard.PrevStep`).
- `nextStep` has no guard of its own either: it advances from any step
  below 4, although the page calls it only from step 1's button and from
  the guest check. The action traces keep that, so a trace may pass steps
  2 and 3 without the guest check or a payment (`Wizard.NextStep`,
  `Wizard.Run`); the step-range and booking-ID lemmas hold for all such
  traces.
- The payment status is only ever set to 'pending' or 'paid'; a declined
  payment leaves it as it was (`Wizard.ProcessBooking`).
- The booking ID is stable under every action of the tab that holds it,
  but a reload caused by another tab's write replaces it
  (`Wizard.RunKeepsBookingId`, `Wizard.ReloadCanReplaceBookingId`).
- A check-out before the check-in is priced, not rejected: nights and
  total come out negative (`Booking.InvertedRangeNegativeTotal`).
- The step number is not part of the saved record, so a restored session
  always starts on step 1 (`Wizard.Init`, `Wizard.StorageChanged`).
- `subtotal` and `transactionId` are not set by the constructor, so a
  record saved before they exist has no such keys, and loading it keeps
  the current record's values (`Storage.MergeSavedRecord`,
  `Storage.ReloadKeepsComputedSubtotal`).

## Model

| member | source | states |
|---|---|---|
| Availability.DayOfWeek | javascript/book-now.js:65-71 | the day of the week of day `today + i` is a value in 0..6 congruent to today's day of the week plus `i` modulo 7 |
| Availability.Classify | javascript/book-now.js:88-93 | booked iff 0 rooms, limited iff 1–2 rooms, available iff 3 or more; `available` holds exactly when rooms > 0, i.e. when the status is not booked |
| Availability.RoomsFor | javascript/book-now.js:71-86 | blackout offsets 15/30/45 get 0 rooms whatever the draw; weekends are sold out when the gate draw is below 0.4 and otherwise get the whole part of 3 × the room draw (0..2, so a weekend can be limited); weekdays are sold out exactly when the gate draw is below 0.2 and otherwise get one more than the whole part of 8 × the room draw (1..8) |
| Availability.GenerateAvailability | javascript/book-now.js:60-97 | the map covers exactly the 90 days from today, each day is the rule applied to its own draw, every entry's flags agree with its room count, blackout days have 0 rooms and are unavailable, and weekend days are never "available" |
| Availability.Scan | javascript/book-now.js:113-126 | walking the range collects exactly the blocked nights and exactly the open limited nights, each list strictly increasing |
| Availability.CheckRange | javascript/book-now.js:99-144 | invalid iff availability or a date is missing; too short iff fewer than 1 night; unavailable iff some night is missing or unavailable, listing exactly those nights in ascending order; bookable iff every night is open, with nights = checkout − checkin and `limited` iff some night is limited, listing exactly those nights in order |
| Availability.OneBlockedNightRejects | javascript/book-now.js:117-134 | one blocked night anywhere in the range rejects the whole stay and is reported |
| Availability.BlackoutRejectsStay | javascript/book-now.js:84-86 | any stay covering a blackout offset is rejected, whatever the random draws |
| Availability.SubRangeStaysBookable | javascript/book-now.js:117-143 | a shorter stay inside a bookable stay is bookable, and a premium on it implies a premium on the longer stay |
| Availability.BlockedNightsSpec | javascript/book-now.js:117-122 | the append-as-you-go construction of the unavailable list holds exactly the blocked nights, in increasing order |
| Availability.LimitedNightsSpec | javascript/book-now.js:123-125 | the append-as-you-go construction of the limited list holds exactly the open limited nights, in increasing order |
| Availability.CheckRangeListsMatchLoop | javascript/book-now.js:113-139 | the reported unavailable and limited lists equal, element for element, the arrays the loop of `checkDateAvailability` pushes |
| Pricing.Multiplier | javascript/book-now.js:163 | the multiplier is at least 1 and exceeds 1 exactly for a limited stay |
| Pricing.CalculatePrice | javascript/book-now.js:160-175 | the returned multiplier is 1.1 for a limited stay and 1.0 otherwise; subtotal = base × nights × multiplier; tax = 7.5% of the subtotal; total = subtotal + tax = base × nights × multiplier × 1.075 |
| Pricing.PriceAdditive | javascript/book-now.js:160-166 | subtotal, tax and total of n1 + n2 nights are the sums of those of n1 and of n2 nights |
| Pricing.PriceMonotoneInNights | javascript/book-now.js:160-166 | with a non-negative rate, more nights never cost less |
| Pricing.LimitedNeverCheaper | javascript/book-now.js:162-164 | a limited stay costs exactly 1.1 times the plain one, hence never less |
| Pricing.RoundHalfUp | javascript/book-now.js:416 | the displayed amount is within half a unit of the exact amount |
| Pricing.ScenarioStandard | javascript/book-now.js:160-175 | 65000 × 2 nights gives 130000 / 9750 / 139750 |
| Pricing.ScenarioLimited | javascript/book-now.js:160-175 | the same stay when limited gives 143000 / 10725 / 153725, displayed as 153725 |
| Guest.TrimStartIndex | javascript/book-now.js:623 | the trimmed string starts at the first non-whitespace position; everything skipped is whitespace |
| Guest.TrimEndIndex | javascript/book-now.js:623 | the trimmed string ends after the last non-whitespace character; everything dropped is whitespace |
| Guest.TrimSpec | javascript/book-now.js:623-626 | trimming keeps a contiguous middle, drops only whitespace around it, and leaves no whitespace at either end |
| Guest.TrimEmptyIffBlank | javascript/book-now.js:635 | a field trims to empty exactly when it is all whitespace |
| Guest.TrimKeepsCharacters | javascript/book-now.js:624 | every character of a trimmed value occurs in the raw value |
| Guest.TrimIdempotent | javascript/book-now.js:623-626 | trimming twice equals trimming once |
| Guest.EmailCheckSound | javascript/book-now.js:641-642 | every address the decision procedure accepts matches the pattern |
| Guest.EmailCheckComplete | javascript/book-now.js:641-642 | every address matching the pattern is accepted by the decision procedure |
| Guest.EmailCheckMatchesPattern | javascript/book-now.js:641-642 | the decision procedure accepts exactly the addresses the pattern matches |
| Guest.EmailWithoutAtRejected | javascript/book-now.js:641-645 | an address with no '@' is rejected |
| Guest.ValidateGuest | javascript/book-now.js:634-651 | each field is judged on its own: name error iff the name is all whitespace, e-mail error iff the trimmed address does not match the pattern, phone error iff the trimmed phone is shorter than 10 |
| Booking.CalculateNightsAndPrice | javascript/book-now.js:308-329 | a missing date changes nothing; otherwise nights = checkout − checkin and the totals are the calculator's for those nights, with the premium only for a bookable limited range, and no other field changes |
| Booking.DerivedTotalsConsistent | javascript/book-now.js:320-327 | after recomputation the totals are consistent: total = 1.075 × subtotal and subtotal = base × nights × (1.1 if limited else 1) |
| Booking.UnavailableRangeAtBaseRate | javascript/book-now.js:315-323 | an unavailable, too-short or unchecked range is priced with no premium |
| Booking.CalculateNightsAndPriceIdempotent | javascript/book-now.js:308-329 | recomputing twice equals recomputing once |
| Booking.InvertedRangeNegativeTotal | javascript/book-now.js:312-327 | a check-out before the check-in yields negative nights and a negative total |
| Storage.Save | javascript/book-now.js:265-270 | the saved entry carries the current time, every key the constructor sets, `subtotal` and `transactionId` exactly when they are set, and merging it back over the same record changes nothing |
| Storage.Merge | javascript/book-now.js:279 | for each of the sixteen fields, a value present in the stored object overrides and an absent one keeps the current value; an empty object changes nothing |
| Storage.Load | javascript/book-now.js:272-287 | nothing stored or unparsable text changes nothing; a fresh entry is merged and kept; a stale or timestamp-less entry is removed and the record is kept |
| Storage.MergeSavedRecord | javascript/book-now.js:265-279 | merging a saved record over the current one gives the saved record with the current subtotal and transaction ID kept where the saved one has none; it is exactly the saved record iff no such value is kept |
| Storage.ReloadKeepsComputedSubtotal | javascript/book-now.js:265-279 | loading a fresh record saved before any price was computed keeps the current subtotal |
| Storage.MergeIdempotent | javascript/book-now.js:279 | merging the same object twice equals merging it once |
| Storage.SaveLoadRoundTrip | javascript/book-now.js:265-282 | loading a save made less than an hour earlier restores it, overlaid on the current record, and keeps the entry; from one hour on the entry is removed and the record kept |
| Storage.ExpiryBoundary | javascript/book-now.js:278 | 3599999 ms after saving still loads the saved record; 3600000 ms does not |
| Wizard.Advance | javascript/book-now.js:604-605 | the step after a valid step is valid, and it is one more unless already on step 4 |
| Wizard.Retreat | javascript/book-now.js:612-613 | the step before a valid step is valid, and it is one less unless already on step 1 |
| Wizard.NextStep | javascript/book-now.js:603-609 | the step advances by one unless already at 4, stays in 1..4, and nothing else changes |
| Wizard.PrevStep | javascript/book-now.js:611-617 | the step goes back by one unless already at 1, stays in 1..4, and nothing else changes |
| Wizard.NavigationInverse | javascript/book-now.js:603-617 | back undoes forward below step 4, and forward undoes back above step 1 |
| Wizard.SubmitGuest | javascript/book-now.js:622-664 | off step 2 the form is absent, all three errors are reported and nothing changes; on step 2 the three checks are reported; on any error the session is unchanged; otherwise the trimmed details replace the guest info, the record is saved and the wizard moves to step 3 |
| Wizard.GuestGate | javascript/book-now.js:634-663 | from step 2 the wizard reaches step 3 iff the name is not blank, the e-mail matches and the phone has 10+ characters; otherwise it stays exactly as it was |
| Wizard.BlankNameAndBadEmailBothReported | javascript/book-now.js:634-653 | the wizard does not move, and on step 2 a blank name and an e-mail without '@' are both flagged while a valid phone is not |
| Wizard.CompleteBooking | javascript/book-now.js:751-766 | confirmation saves the record and lands on step 4, leaving the record and availability unchanged |
| Wizard.ProcessBooking | javascript/book-now.js:692-749 | only acts on step 3; afterwards a booking ID is set and an existing one is kept; pay-later ends on step 4 as pending and saved; an approved payment ends on step 4 as paid with its transaction ID and saved; in both, no other field of the record and not the availability changes; a declined one stays on step 3 with only the ID possibly set |
| Wizard.RetryKeepsBookingId | javascript/book-now.js:696-699 | a retry after a declined payment keeps the first attempt's ID |
| Wizard.PayLaterIgnoresPayment | javascript/book-now.js:701-704 | with pay-later the payment outcome has no influence and the status becomes pending |
| Wizard.SelectPaymentMethod | javascript/book-now.js:682-685 | the payment method becomes the one chosen; the step, the availability, the storage and every other field are unchanged |
| Wizard.TogglePayLater | javascript/book-now.js:687-690 | the pay-later flag flips; the step, the availability, the storage and every other field are unchanged |
| Wizard.TogglePayLaterInvolution | javascript/book-now.js:687-690 | toggling twice restores the session |
| Wizard.StorageChanged | javascript/book-now.js:820-826 | a reload from another tab's write applies the load rule and leaves the step and availability alone |
| Wizard.RunKeepsStepInRange | javascript/book-now.js:603-617 | after any sequence of actions the step is still in 1..4 |
| Wizard.ApplyKeepsBookingId | javascript/book-now.js:696-699 | any single action other than a reload keeps an assigned booking ID |
| Wizard.RunKeepsBookingId | javascript/book-now.js:696-699 | once set, the booking ID survives every sequence of actions that contains no reload |
| Wizard.ReloadCanReplaceBookingId | javascript/book-now.js:820-826 | a reload of another tab's fresh record with a different ID replaces the current one |
| Wizard.ApplyUrl | javascript/book-now.js:292-303 | each given query parameter (checkin, checkout, adults, children) replaces its field, an absent one keeps it, and no other field changes |
| Wizard.Init | javascript/book-now.js:36-42 | a session starts on step 1; each of the 90 days holds the generator's entry for its own draw; the storage is as the load rule leaves it; each given query parameter overrides the restored field and an absent one keeps it; every other restored field survives, the price fields only change when both dates are set, and then nights = checkout − checkin with the totals priced at the range check's premium |

## Left out

- Rendering (`renderStep1`–`renderStep4`, `updateProgressSteps`, `showError`, the processing overlay) and the confirmation e-mail text: they produce HTML only.
- Message strings of the range check: each outcome is a variant of `RangeResult`; the "Unavailable on: …" text needs locale date formatting.
- `formatDate`: dates are day indices; time zones and locale formats are not modelled.
- `generateBookingId`'s format and `Math.random`/`Date.now`: the ID, the draws and the clock are inputs. The model needs only that a generated ID is non-empty.
- The 90% success rate and 2.5 s delay of the simulated payment: the outcome is an input, the same for every payment method.
- `localStorage`/`sessionStorage` I/O and JSON: the stored entry is a value (unparsable, or a partial record with an optional timestamp); keys the record does not know are ignored.
- The 5-second removal of the `westbrook_booking_temp` key: that key is never written by the booking engine.
- URL parsing and `parseInt`: query-string values arrive already parsed (`Wizard.UrlParams`).
- The room-page checker, flatpickr and `initExistingUI`: UI wiring around the same range check.
- All of `javascript/index.js`: slideshow, menus and other page effects.
- Pricing.CalculatePrice: amounts are exact reals, not IEEE doubles, so rounding noise such as 130000 × 1.1 = 143000.00000000003 is not modelled.
- Guest.ValidateGuest: the phone length counts Unicode characters, where JavaScript counts UTF-16 code units (characters outside the Basic Multilingual Plane count twice there).
- Wizard.SubmitGuest: the form's inputs exist only on the guest step; their absence elsewhere (`?.value` giving undefined) is modelled as a step guard that reports all three errors.
- Wizard.ProcessBooking: the early return when no payment button exists is modelled as "the session is not on step 3", the only step that renders it.
- Wizard.ProcessBooking: the payment is one atomic step. In `book-now.js` the 2.5 s wait (line 203) is asynchronous: Back (line 508) stays enabled and choosing a method or toggling pay-later (lines 684, 689) re-renders a fresh Pay button meanwhile; `completeBooking` then sets step 4 (line 764) from whatever step the user is on, and a decline leaves them wherever they moved. Interleavings during the wait are not modelled.

=== FILE: availability.dfy ===
/** Synthetic room availability: the per-day status rule, the 90-day
    generator, and the date-range check run before pricing.

    Dates are integer day indices. A stay [checkin, checkout) occupies the
    nights checkin, checkin + 1, ..., checkout - 1. */
module Availability {
  import opened Wrappers

  datatype RoomStatus = Booked | Limited | Available

  /** One day of the calendar: `available` and `status` are both derived
      from `roomsLeft` by the generator, but the range check reads the two
      flags, not the count. */
  datatype DayInfo = DayInfo(available: bool, roomsLeft: nat, status: RoomStatus)

  type AvailabilityMap = map<int, DayInfo>

  /** Number of days generated, today included. */
  const Horizon: nat := 90

  /** Offsets from today that are forced to zero rooms. */
  predicate IsBlackout(offset: int) {
    offset == 15 || offset == 30 || offset == 45
  }

  /** Friday (5) and Saturday (6) are the busy days. */
  predicate IsWeekend(dayOfWeek: int) {
    dayOfWeek == 5 || dayOfWeek == 6
  }

  /** Day of the week of `today + offset`, given today's day of the week. */
  function DayOfWeek(todayDow: int, offset: int): (dow: int)
    ensures 0 <= dow < 7
    ensures (dow - (todayDow + offset)) % 7 == 0
  {
    (todayDow + offset) % 7
  }

  /** The status rule: zero rooms is booked, one or two is limited,
      three or more is available. */
  function Classify(rooms: nat): (d: DayInfo)
    ensures d.roomsLeft == rooms
    ensures d.available <==> rooms > 0
    ensures d.available <==> d.status != Booked
    ensures d.status == Booked <==> rooms == 0
    ensures d.status == Limited <==> 1 <= rooms <= 2
    ensures d.status == Available <==> rooms >= 3
  {
    DayInfo(rooms > 0, rooms, if rooms == 0 then Booked else if rooms < 3 then Limited else Available)
  }

  /** A day whose flags agree with its room count. */
  predicate WellFormed(d: DayInfo) {
    d == Classify(d.roomsLeft)
  }

  /** The two `Math.random()` values a day may consume: `gate` decides
      whether the day is sold out, `rooms` how many rooms remain. */
  datatype Draw = Draw(gate: real, rooms: real)

  predicate ValidDraw(d: Draw) {
    0.0 <= d.gate < 1.0 && 0.0 <= d.rooms < 1.0
  }

  /** Rooms left on the day `offset` days from today. Weekends sell out
      with probability 0.4 and otherwise keep the whole part of three
      times the room draw (0..2); weekdays sell out with probability 0.2
      and otherwise keep one more than the whole part of eight times the
      room draw (1..8); blackout offsets keep none whatever the draw. */
  function RoomsFor(offset: int, weekend: bool, draw: Draw): (rooms: nat)
    requires ValidDraw(draw)
    ensures IsBlackout(offset) ==> rooms == 0
    ensures weekend ==> rooms <= 2
    ensures !weekend ==> rooms <= 8
    ensures !IsBlackout(offset) && weekend ==> (draw.gate < 0.4 ==> rooms == 0)
    ensures !IsBlackout(offset) && !weekend ==> (rooms == 0 <==> draw.gate < 0.2)
    ensures !IsBlackout(offset) && weekend && draw.gate >= 0.4 ==>
      rooms as real <= draw.rooms * 3.0 < rooms as real + 1.0
    ensures !IsBlackout(offset) && !weekend && draw.gate >= 0.2 ==>
      (rooms - 1) as real <= draw.rooms * 8.0 < rooms as real
  {
    var drawn: nat :=
      if weekend then
        (if draw.gate < 0.4 then 0 else (draw.rooms * 3.0).Floor)
      else
        (if draw.gate < 0.2 then 0 else (draw.rooms * 8.0).Floor + 1);
    if IsBlackout(offset) then 0 else drawn
  }

  /** The calendar entry generated for `today + offset`. */
  function GeneratedDay(todayDow: int, offset: int, draw: Draw): DayInfo
    requires ValidDraw(draw)
  {
    Classify(RoomsFor(offset, IsWeekend(DayOfWeek(todayDow, offset)), draw))
  }

  /** Builds the availability map for the 90 days starting at `today`,
      consuming one draw per day. */
  method GenerateAvailability(today: int, todayDow: int, draws: seq<Draw>) returns (m: AvailabilityMap)
    requires |draws| == Horizon
    requires forall k :: 0 <= k < |draws| ==> ValidDraw(draws[k])
    ensures forall d :: d in m <==> today <= d < today + Horizon
    ensures forall k :: 0 <= k < Horizon ==> m[today + k] == GeneratedDay(todayDow, k, draws[k])
    ensures forall d :: d in m ==> WellFormed(m[d])
    ensures forall d :: d in m && IsBlackout(d - today) ==> m[d].roomsLeft == 0 && !m[d].available
    ensures forall d :: d in m && IsWeekend(DayOfWeek(todayDow, d - today)) ==> m[d].status != Available
  {
    m := map[];
    var i := 0;
    while i < Horizon
      invariant 0 <= i <= Horizon
      invariant forall d :: d in m <==> today <= d < today + i
      invariant forall k :: 0 <= k < i ==> m[today + k] == GeneratedDay(todayDow, k, draws[k])
      invariant forall d :: d in m ==> WellFormed(m[d])
      invariant forall d :: d in m && IsBlackout(d - today) ==> m[d].roomsLeft == 0 && !m[d].available
      invariant forall d :: d in m && IsWeekend(DayOfWeek(todayDow, d - today)) ==> m[d].status != Available
    {
      var day := GeneratedDay(todayDow, i, draws[i]);
      m := m[today + i := day];
      i := i + 1;
    }
  }

  /** A night that rejects a stay: missing from the map, or not available. */
  predicate Blocked(m: AvailabilityMap, d: int) {
    d !in m || !m[d].available
  }

  /** A night that is bookable but carries the limited-availability premium. */
  predicate LimitedOn(m: AvailabilityMap, d: int) {
    d in m && m[d].available && m[d].status == Limited
  }

  predicate StrictlyIncreasing(s: seq<int>) {
    forall i, j :: 0 <= i < j < |s| ==> s[i] < s[j]
  }

  /** Putting a smaller element in front keeps a sequence increasing. */
  lemma PrependIncreasing(x: int, s: seq<int>)
    requires StrictlyIncreasing(s)
    requires forall k :: 0 <= k < |s| ==> x < s[k]
    ensures StrictlyIncreasing([x] + s)
  {
    var t := [x] + s;
    forall i, j | 0 <= i < j < |t|
      ensures t[i] < t[j]
    {
      if i > 0 {
        assert t[i] == s[i - 1] && t[j] == s[j - 1];
      } else {
        assert t[j] == s[j - 1];
      }
    }
  }

  /** The two lists the range check accumulates night by night. */
  datatype Scanned = Scanned(unavailable: seq<int>, limited: seq<int>)

  /** Walks the nights of [from, to) in ascending order, collecting the
      blocked nights and, among the others, the limited ones. */
  function Scan(m: AvailabilityMap, from: int, to: int): (r: Scanned)
    decreases to - from
    ensures forall d :: d in r.unavailable <==> from <= d < to && Blocked(m, d)
    ensures forall d :: d in r.limited <==> from <= d < to && LimitedOn(m, d)
    ensures StrictlyIncreasing(r.unavailable) && StrictlyIncreasing(r.limited)
  {
    if to <= from then Scanned([], [])
    else
      var rest := Scan(m, from + 1, to);
      if Blocked(m, from) then
        assert forall k :: 0 <= k < |rest.unavailable| ==> rest.unavailable[k] in rest.unavailable;
        PrependIncreasing(from, rest.unavailable);
        Scanned([from] + rest.unavailable, rest.limited)
      else if LimitedOn(m, from) then
        assert forall k :: 0 <= k < |rest.limited| ==> rest.limited[k] in rest.limited;
        PrependIncreasing(from, rest.limited);
        Scanned(rest.unavailable, [from] + rest.limited)
      else rest
  }

  /** Outcome of checking a stay. `checkDateAvailability` returns an object whose shape
      depends on the branch taken; each shape is one variant here. */
  datatype RangeResult =
    | InvalidDates
    | TooShort
    | Unavailable(unavailableDates: seq<int>)
    | Bookable(limited: bool, limitedDates: seq<int>, nights: int)
  {
    /** The `limited` field as a caller reads it: absent, hence false,
        unless the range is bookable. */
    predicate IsLimited() {
      Bookable? && limited
    }
  }

  /** Every night of [checkin, checkout) is in the map and available. */
  predicate AllNightsOpen(m: AvailabilityMap, checkin: int, checkout: int) {
    forall d :: checkin <= d < checkout ==> !Blocked(m, d)
  }

  /** The date-range check. It needs loaded availability and both dates,
      a stay of at least one night, and every night open; a single blocked
      night anywhere rejects the whole range. */
  function CheckRange(avail: Option<AvailabilityMap>, checkin: Option<int>, checkout: Option<int>): (r: RangeResult)
    ensures r.InvalidDates? <==> avail.None? || checkin.None? || checkout.None?
    ensures r.TooShort? <==> avail.Some? && checkin.Some? && checkout.Some? && checkout.value - checkin.value < 1
    ensures r.Unavailable? <==>
      avail.Some? && checkin.Some? && checkout.Some? && checkout.value - checkin.value >= 1
      && !AllNightsOpen(avail.value, checkin.value, checkout.value)
    ensures r.Unavailable? ==>
      |r.unavailableDates| > 0 && StrictlyIncreasing(r.unavailableDates)
      && forall d :: d in r.unavailableDates <==> checkin.value <= d < checkout.value && Blocked(avail.value, d)
    ensures r.Bookable? <==>
      avail.Some? && checkin.Some? && checkout.Some? && checkout.value - checkin.value >= 1
      && AllNightsOpen(avail.value, checkin.value, checkout.value)
    ensures r.Bookable? ==>
      r.nights == checkout.value - checkin.value
      && StrictlyIncreasing(r.limitedDates)
      && (forall d :: d in r.limitedDates <==> checkin.value <= d < checkout.value && LimitedOn(avail.value, d))
      && (r.limited <==> exists d :: checkin.value <= d < checkout.value && LimitedOn(avail.value, d))
  {
    if avail.None? || checkin.None? || checkout.None? then InvalidDates
    else
      var nights := checkout.value - checkin.value;
      if nights < 1 then TooShort
      else
        var s := Scan(avail.value, checkin.value, checkout.value);
        if |s.unavailable| > 0 then
          assert s.unavailable[0] in s.unavailable;
          Unavailable(s.unavailable)
        else
          assert |s.limited| > 0 ==> s.limited[0] in s.limited;
          Bookable(|s.limited| > 0, s.limited, nights)
  }

  /** A single blocked night anywhere in a stay of at least one night
      rejects the whole stay, and that night is reported. */
  lemma OneBlockedNightRejects(m: AvailabilityMap, checkin: int, checkout: int, d: int)
    requires checkin <= d < checkout
    requires Blocked(m, d)
    ensures CheckRange(Some(m), Some(checkin), Some(checkout)).Unavailable?
    ensures d in CheckRange(Some(m), Some(checkin), Some(checkout)).unavailableDates
  {
  }

  /** Blackout offsets are never bookable: any stay that covers one of
      them is rejected, whatever the random draws were. */
  lemma BlackoutRejectsStay(m: AvailabilityMap, today: int, checkin: int, checkout: int, offset: int)
    requires forall d :: d in m && IsBlackout(d - today) ==> m[d].roomsLeft == 0 && !m[d].available
    requires IsBlackout(offset)
    requires checkin <= today + offset < checkout
    ensures CheckRange(Some(m), Some(checkin), Some(checkout)).Unavailable?
    ensures today + offset in CheckRange(Some(m), Some(checkin), Some(checkout)).unavailableDates
  {
    assert Blocked(m, today + offset);
    OneBlockedNightRejects(m, checkin, checkout, today + offset);
  }

  /** Shortening a bookable stay keeps it bookable, and a premium on the
      shorter stay implies a premium on the longer one. */
  lemma SubRangeStaysBookable(m: AvailabilityMap, checkin: int, checkout: int, lo: int, hi: int)
    requires CheckRange(Some(m), Some(checkin), Some(checkout)).Bookable?
    requires checkin <= lo < hi <= checkout
    ensures CheckRange(Some(m), Some(lo), Some(hi)).Bookable?
    ensures CheckRange(Some(m), Some(lo), Some(hi)).IsLimited() ==> CheckRange(Some(m), Some(checkin), Some(checkout)).IsLimited()
  {
    var inner := CheckRange(Some(m), Some(lo), Some(hi));
    if inner.IsLimited() {
      var d :| lo <= d < hi && LimitedOn(m, d);
      assert checkin <= d < checkout;
    }
  }

  /** Reference definition of the blocked nights of [from, to): the
      nights are visited in ascending order and each blocked one is
      appended at the end, as `checkDateAvailability` pushes onto its array. */
  function BlockedNights(m: AvailabilityMap, from: int, to: int): seq<int>
    decreases to - from
  {
    if to <= from then []
    else BlockedNights(m, from, to - 1) + (if Blocked(m, to - 1) then [to - 1] else [])
  }

  /** Reference definition of the limited nights of [from, to), built the
      same way. */
  function LimitedNights(m: AvailabilityMap, from: int, to: int): seq<int>
    decreases to - from
  {
    if to <= from then []
    else LimitedNights(m, from, to - 1) + (if !Blocked(m, to - 1) && LimitedOn(m, to - 1) then [to - 1] else [])
  }

  /** The appending construction collects exactly the nights of the range
      that satisfy the filter, in increasing order. */
  lemma {:induction false} BlockedNightsSpec(m: AvailabilityMap, from: int, to: int)
    decreases to - from
    ensures StrictlyIncreasing(BlockedNights(m, from, to))
    ensures forall d :: d in BlockedNights(m, from, to) <==> from <= d < to && Blocked(m, d)
  {
    if to > from {
      BlockedNightsSpec(m, from, to - 1);
      var prev := BlockedNights(m, from, to - 1);
      assert forall k :: 0 <= k < |prev| ==> prev[k] in prev;
      AppendIncreasing(BlockedNights(m, from, to - 1), to - 1, Blocked(m, to - 1));
    }
  }

  lemma {:induction false} LimitedNightsSpec(m: AvailabilityMap, from: int, to: int)
    decreases to - from
    ensures StrictlyIncreasing(LimitedNights(m, from, to))
    ensures forall d :: d in LimitedNights(m, from, to) <==> from <= d < to && LimitedOn(m, d)
  {
    if to > from {
      LimitedNightsSpec(m, from, to - 1);
      var prev := LimitedNights(m, from, to - 1);
      assert forall k :: 0 <= k < |prev| ==> prev[k] in prev;
      AppendIncreasing(LimitedNights(m, from, to - 1), to - 1, !Blocked(m, to - 1) && LimitedOn(m, to - 1));
    }
  }

  /** Appending (or not) an element above every element keeps a sequence
      increasing. */
  lemma AppendIncreasing(s: seq<int>, x: int, keep: bool)
    requires StrictlyIncreasing(s)
    requires forall k :: 0 <= k < |s| ==> s[k] < x
    ensures StrictlyIncreasing(s + (if keep then [x] else []))
  {
    var t := s + (if keep then [x] else []);
    forall i, j | 0 <= i < j < |t|
      ensures t[i] < t[j]
    {
      assert t[i] == s[i];
    }
  }

  lemma HeadIsElement(s: seq<int>)
    ensures |s| > 0 ==> s[0] in s
  {
  }

  /** The head of an increasing sequence is its least element. */
  lemma HeadIsLeast(s: seq<int>, x: int)
    requires StrictlyIncreasing(s)
    requires x in s
    ensures s[0] <= x
  {
  }

  /** The tail of an increasing sequence holds every element but the head. */
  lemma TailMembers(s: seq<int>)
    requires StrictlyIncreasing(s) && |s| > 0
    ensures forall x :: x in s[1..] <==> x in s && x != s[0]
  {
    assert s == [s[0]] + s[1..];
  }

  /** Two increasing sequences with the same elements are equal, so a
      list described by its elements and its order is unique. */
  lemma {:induction false} IncreasingUnique(a: seq<int>, b: seq<int>)
    requires StrictlyIncreasing(a) && StrictlyIncreasing(b)
    requires forall x :: x in a <==> x in b
    ensures a == b
    decreases |a|
  {
    HeadIsElement(a);
    HeadIsElement(b);
    if |a| > 0 && |b| > 0 {
      HeadIsLeast(a, b[0]);
      HeadIsLeast(b, a[0]);
      TailMembers(a);
      TailMembers(b);
      IncreasingUnique(a[1..], b[1..]);
      assert a == [a[0]] + a[1..];
      assert b == [b[0]] + b[1..];
    }
  }

  /** The range check reports exactly the lists the loop of `checkDateAvailability` builds:
      blocked nights, then limited nights, each in ascending order. */
  lemma CheckRangeListsMatchLoop(m: AvailabilityMap, checkin: int, checkout: int)
    ensures CheckRange(Some(m), Some(checkin), Some(checkout)).Unavailable? ==>
      CheckRange(Some(m), Some(checkin), Some(checkout)).unavailableDates == BlockedNights(m, checkin, checkout)
    ensures CheckRange(Some(m), Some(checkin), Some(checkout)).Bookable? ==>
      CheckRange(Some(m), Some(checkin), Some(checkout)).limitedDates == LimitedNights(m, checkin, checkout)
  {
    var r := CheckRange(Some(m), Some(checkin), Some(checkout));
    BlockedNightsSpec(m, checkin, checkout);
    LimitedNightsSpec(m, checkin, checkout);
    if r.Unavailable? {
      IncreasingUnique(r.unavailableDates, BlockedNights(m, checkin, checkout));
    }
    if r.Bookable? {
      IncreasingUnique(r.limitedDates, LimitedNights(m, checkin, checkout));
    }
  }
}

=== FILE: booking.dfy ===
/** The booking record and the derived nights/price fields. */
module Booking {
  import opened Wrappers
  import opened Availability
  import opened Pricing

  datatype GuestInfo = GuestInfo(fullName: string, email: string, phone: string, specialRequests: string)

  datatype PaymentMethod = Card | Paystack | Flutterwave

  /** book-now.js only ever writes 'pending' (pay later) or 'paid'. */
  datatype PaymentStatus = Pending | Paid

  /** The in-progress reservation. `subtotal` and `transactionId` are
      absent until first computed or first paid. */
  datatype BookingData = BookingData(
    roomType: string,
    basePrice: int,
    checkin: Option<int>,
    checkout: Option<int>,
    adults: int,
    children: int,
    nights: int,
    subtotal: Option<real>,
    totalPrice: real,
    tax: real,
    guestInfo: GuestInfo,
    paymentMethod: PaymentMethod,
    paymentStatus: Option<PaymentStatus>,
    bookingId: Option<string>,
    isPayLater: bool,
    transactionId: Option<string>)

  /** Nightly rate of the Westbrook Deluxe room. */
  const DefaultBasePrice: int := 65000

  /** The record a fresh session starts from. */
  const DefaultBooking: BookingData := BookingData(
    "Westbrook Deluxe", DefaultBasePrice, None, None, 2, 0, 0, None, 0.0, 0.0,
    GuestInfo("", "", "", ""), Card, None, None, false, None)

  /** The price fields agree with the price calculator for the stored
      number of nights, with or without the limited premium. */
  predicate PricedAs(b: BookingData, limited: bool) {
    var p := CalculatePrice(b.basePrice, b.nights, limited);
    b.subtotal == Some(p.subtotal) && b.tax == p.tax && b.totalPrice == p.total
  }

  /** Recomputes nights and price when both dates are set. The premium
      applies only when the range check says the stay is bookable and
      limited; an unavailable or too-short range is priced at the base
      rate, and nights may be zero or negative as the subtraction gives. */
  function CalculateNightsAndPrice(b: BookingData, avail: Option<AvailabilityMap>): (b': BookingData)
    ensures b.checkin.None? || b.checkout.None? ==> b' == b
    ensures b.checkin.Some? && b.checkout.Some? ==>
      && b'.nights == b.checkout.value - b.checkin.value
      && PricedAs(b', CheckRange(avail, b.checkin, b.checkout).IsLimited())
      && b' == b.(nights := b'.nights, subtotal := b'.subtotal, tax := b'.tax, totalPrice := b'.totalPrice)
  {
    if b.checkin.Some? && b.checkout.Some? then
      var nights := b.checkout.value - b.checkin.value;
      var availability := CheckRange(avail, b.checkin, b.checkout);
      var price := CalculatePrice(b.basePrice, nights, availability.IsLimited());
      b.(nights := nights, subtotal := Some(price.subtotal), tax := price.tax, totalPrice := price.total)
    else b
  }

  /** After recomputation with both dates set, the totals are consistent:
      the total is subtotal plus 7.5% tax, and the subtotal is the base
      rate times nights, with the 10% premium exactly when the range is a
      bookable limited one. */
  lemma DerivedTotalsConsistent(b: BookingData, avail: Option<AvailabilityMap>)
    requires b.checkin.Some? && b.checkout.Some?
    ensures PricedAs(CalculateNightsAndPrice(b, avail), CheckRange(avail, b.checkin, b.checkout).IsLimited())
    ensures CalculateNightsAndPrice(b, avail).totalPrice
         == CalculateNightsAndPrice(b, avail).subtotal.value * 1.075
    ensures CalculateNightsAndPrice(b, avail).subtotal.value
         == (b.basePrice * (b.checkout.value - b.checkin.value)) as real
            * (if CheckRange(avail, b.checkin, b.checkout).IsLimited() then 1.1 else 1.0)
  {
  }

  /** A range that is not bookable carries no premium. */
  lemma UnavailableRangeAtBaseRate(b: BookingData, avail: Option<AvailabilityMap>)
    requires b.checkin.Some? && b.checkout.Some?
    requires !CheckRange(avail, b.checkin, b.checkout).Bookable?
    ensures CalculateNightsAndPrice(b, avail).subtotal
         == Some((b.basePrice * (b.checkout.value - b.checkin.value)) as real)
  {
  }

  /** Recomputing twice changes nothing further. */
  lemma CalculateNightsAndPriceIdempotent(b: BookingData, avail: Option<AvailabilityMap>)
    ensures CalculateNightsAndPrice(CalculateNightsAndPrice(b, avail), avail) == CalculateNightsAndPrice(b, avail)
  {
  }

  /** Nothing stops a check-out before the check-in: nights come out
      negative and so does the total. */
  lemma InvertedRangeNegativeTotal(b: BookingData, avail: Option<AvailabilityMap>)
    requires b.checkin.Some? && b.checkout.Some? && b.checkout.value < b.checkin.value
    requires b.basePrice > 0
    ensures CalculateNightsAndPrice(b, avail).nights < 0
    ensures CalculateNightsAndPrice(b, avail).totalPrice < 0.0
  {
    var n := b.checkout.value - b.checkin.value;
    assert b.basePrice * n < 0;
  }
}

=== FILE: guest.dfy ===
/** Guest-details validation: JavaScript's `trim`, the e-mail pattern
    `^[^\s@]+@[^\s@]+\.[^\s@]+$`, and the three field checks, which run
    independently so that every failing field is reported at once. */
module Guest {

  /** The characters that `String.prototype.trim` strips and that `\s`
      matches: ECMAScript WhiteSpace and LineTerminator. */
  predicate IsWhitespace(c: char) {
    || c == '\t' || c == '\n' || c == '\U{B}' || c == '\U{C}' || c == '\r' || c == ' '
    || c == '\U{A0}' || c == '\U{1680}' || ('\U{2000}' <= c <= '\U{200A}')
    || c == '\U{2028}' || c == '\U{2029}' || c == '\U{202F}' || c == '\U{205F}'
    || c == '\U{3000}' || c == '\U{FEFF}'
  }

  /** Every character of `s[lo..hi]` is whitespace. */
  predicate WhitespaceBetween(s: string, lo: int, hi: int)
    requires 0 <= lo <= hi <= |s|
  {
    forall k :: lo <= k < hi ==> IsWhitespace(s[k])
  }

  predicate AllWhitespace(s: string) {
    WhitespaceBetween(s, 0, |s|)
  }

  /** Where the trimmed string starts: the first non-whitespace position
      at or after `i`, or |s|. */
  function TrimStartIndex(s: string, i: int): (i': int)
    requires 0 <= i <= |s|
    decreases |s| - i
    ensures i <= i' <= |s|
    ensures WhitespaceBetween(s, i, i')
    ensures i' < |s| ==> !IsWhitespace(s[i'])
  {
    if i < |s| && IsWhitespace(s[i]) then TrimStartIndex(s, i + 1) else i
  }

  /** Where the trimmed string ends: the position after the last
      non-whitespace character of `s[lo..j]`, or `lo`. */
  function TrimEndIndex(s: string, lo: int, j: int): (j': int)
    requires 0 <= lo <= j <= |s|
    decreases j - lo
    ensures lo <= j' <= j
    ensures WhitespaceBetween(s, j', j)
    ensures j' > lo ==> !IsWhitespace(s[j' - 1])
  {
    if j > lo && IsWhitespace(s[j - 1]) then TrimEndIndex(s, lo, j - 1) else j
  }

  /** `String.prototype.trim`: leading whitespace off first, then
      trailing. */
  function Trim(s: string): string {
    var i := TrimStartIndex(s, 0);
    s[i..TrimEndIndex(s, i, |s|)]
  }

  /** Trimming keeps a contiguous middle part of the string, removes only
      whitespace around it, and leaves no whitespace at either end. */
  lemma TrimSpec(s: string)
    ensures exists i, j :: (0 <= i <= j <= |s| && Trim(s) == s[i..j]
      && WhitespaceBetween(s, 0, i) && WhitespaceBetween(s, j, |s|))
    ensures |Trim(s)| > 0 ==> !IsWhitespace(Trim(s)[0]) && !IsWhitespace(Trim(s)[|Trim(s)| - 1])
  {
    var i := TrimStartIndex(s, 0);
    var j := TrimEndIndex(s, i, |s|);
    assert Trim(s) == s[i..j];
  }

  /** A string trims to empty exactly when it is all whitespace. */
  lemma TrimEmptyIffBlank(s: string)
    ensures Trim(s) == [] <==> AllWhitespace(s)
  {
    var i := TrimStartIndex(s, 0);
    var j := TrimEndIndex(s, i, |s|);
    assert |Trim(s)| == j - i;
  }

  /** Trimming only removes characters. */
  lemma TrimKeepsCharacters(s: string)
    ensures forall c :: c in Trim(s) ==> c in s
  {
    var i := TrimStartIndex(s, 0);
    var j := TrimEndIndex(s, i, |s|);
    assert forall k :: 0 <= k < j - i ==> Trim(s)[k] == s[i + k];
  }

  /** Trimming twice is the same as trimming once. */
  lemma TrimIdempotent(s: string)
    ensures Trim(Trim(s)) == Trim(s)
  {
    var t := Trim(s);
    TrimSpec(s);
    assert TrimStartIndex(t, 0) == 0;
    assert TrimEndIndex(t, 0, |t|) == |t|;
    assert t[0..|t|] == t;
  }

  /** A character allowed in each part of the e-mail pattern: `[^\s@]`. */
  predicate PlainChar(c: char) {
    !IsWhitespace(c) && c != '@'
  }

  /** `s[lo..hi]` is a non-empty run of `[^\s@]`. */
  predicate PlainRun(s: string, lo: int, hi: int)
    requires 0 <= lo <= hi <= |s|
  {
    lo < hi && forall k :: lo <= k < hi ==> PlainChar(s[k])
  }

  /** The e-mail pattern read literally: some '@' at `i` and some '.' at
      `j` split the string into three non-empty runs of plain characters. */
  ghost predicate EmailPattern(s: string) {
    exists i, j :: 0 < i && i + 1 < j && j + 1 < |s| && s[i] == '@' && s[j] == '.'
      && PlainRun(s, 0, i) && PlainRun(s, i + 1, j) && PlainRun(s, j + 1, |s|)
  }

  /** Index of the first '@' at or after `from`, or |s| when there is none. */
  function IndexOfAt(s: string, from: int): (i: int)
    requires 0 <= from <= |s|
    decreases |s| - from
    ensures from <= i <= |s|
    ensures forall k :: from <= k < i ==> s[k] != '@'
    ensures i < |s| ==> s[i] == '@'
  {
    if from == |s| || s[from] == '@' then from else IndexOfAt(s, from + 1)
  }

  /** Some '.' strictly inside `s[lo..hi]`, neither first nor last. */
  predicate HasInnerDot(s: string, lo: int, hi: int)
    requires 0 <= lo <= hi <= |s|
  {
    exists j :: lo < j < hi - 1 && s[j] == '.'
  }

  /** The decision procedure for the e-mail pattern: a first '@' that is
      not the first character, plain runs on both sides of it, and a '.'
      strictly inside the part after it. */
  predicate IsValidEmail(s: string) {
    var i := IndexOfAt(s, 0);
    && 0 < i < |s|
    && PlainRun(s, 0, i)
    && PlainRun(s, i + 1, |s|)
    && HasInnerDot(s, i + 1, |s|)
  }

  /** Every string the decision procedure accepts matches the regular
      expression. */
  lemma EmailCheckSound(s: string)
    requires IsValidEmail(s)
    ensures EmailPattern(s)
  {
    var i := IndexOfAt(s, 0);
    var j :| i + 1 < j < |s| - 1 && s[j] == '.';
    assert PlainRun(s, i + 1, j) && PlainRun(s, j + 1, |s|);
  }

  /** Every string the regular expression matches is accepted by the
      decision procedure. */
  lemma EmailCheckComplete(s: string)
    requires EmailPattern(s)
    ensures IsValidEmail(s)
  {
    var a, b :| 0 < a && a + 1 < b && b + 1 < |s| && s[a] == '@' && s[b] == '.'
      && PlainRun(s, 0, a) && PlainRun(s, a + 1, b) && PlainRun(s, b + 1, |s|);
    var i := IndexOfAt(s, 0);
    assert i == a;
    assert PlainRun(s, a + 1, |s|) by {
      forall k | a + 1 <= k < |s| ensures PlainChar(s[k]) {
        if k == b {
          assert s[k] == '.';
        }
      }
    }
    assert HasInnerDot(s, a + 1, |s|);
  }

  /** The decision procedure accepts exactly the strings the regular
      expression matches. */
  lemma EmailCheckMatchesPattern(s: string)
    ensures IsValidEmail(s) <==> EmailPattern(s)
  {
    if IsValidEmail(s) {
      EmailCheckSound(s);
    }
    if EmailPattern(s) {
      EmailCheckComplete(s);
    }
  }

  /** An address without '@' is rejected, before or after trimming. */
  lemma EmailWithoutAtRejected(email: string)
    requires '@' !in email
    ensures !EmailPattern(Trim(email))
  {
    TrimKeepsCharacters(email);
  }

  /** The raw contents of the guest-details form. */
  datatype GuestForm = GuestForm(fullName: string, email: string, phone: string, specialRequests: string)

  /** Which fields show an error. */
  datatype FieldErrors = FieldErrors(name: bool, email: bool, phone: bool) {
    predicate Ok() {
      !name && !email && !phone
    }
  }

  /** Minimum phone length after trimming. */
  const MinPhoneLength: nat := 10

  /** Checks all three required fields, each on its trimmed value and
      each regardless of the others. */
  function ValidateGuest(form: GuestForm): (e: FieldErrors)
    ensures e.name <==> AllWhitespace(form.fullName)
    ensures e.email <==> !EmailPattern(Trim(form.email))
    ensures e.phone <==> |Trim(form.phone)| < MinPhoneLength
  {
    TrimEmptyIffBlank(form.fullName);
    EmailCheckMatchesPattern(Trim(form.email));
    FieldErrors(
      Trim(form.fullName) == [],
      !IsValidEmail(Trim(form.email)),
      |Trim(form.phone)| < MinPhoneLength)
  }
}

=== FILE: pricing.dfy ===
/** Price of a stay: base rate times nights, a 10% premium when any night
    has limited availability, then 7.5% tax. Amounts are exact reals;
    rounding to whole currency units happens only for display. */
module Pricing {

  /** Multiplier applied when the stay touches a limited-availability night. */
  const LimitedPremium: real := 1.1

  /** Tax as a fraction of the subtotal. */
  const TaxRate: real := 0.075

  datatype Price = Price(baseTotal: real, subtotal: real, tax: real, total: real, multiplier: real)

  /** The multiplier for a stay, limited or not. */
  function Multiplier(isLimited: bool): (k: real)
    ensures k >= 1.0
    ensures isLimited <==> k > 1.0
  {
    if isLimited then LimitedPremium else 1.0
  }

  /** The price breakdown for `nights` nights at `basePrice` per night. */
  function CalculatePrice(basePrice: int, nights: int, isLimited: bool): (p: Price)
    ensures p.baseTotal == (basePrice * nights) as real
    ensures p.multiplier == Multiplier(isLimited)
    ensures p.subtotal == p.baseTotal * p.multiplier
    ensures p.total == p.subtotal + p.tax
    ensures p.tax == p.subtotal * TaxRate
    ensures p.total == (basePrice * nights) as real * Multiplier(isLimited) * 1.075
  {
    var baseTotal := (basePrice * nights) as real;
    var multiplier := Multiplier(isLimited);
    var subtotal := baseTotal * multiplier;
    var tax := subtotal * TaxRate;
    Price(baseTotal, subtotal, tax, subtotal + tax, multiplier)
  }

  /** Price is linear in the number of nights: a stay costs the sum of
      its parts, component by component. */
  lemma PriceAdditive(basePrice: int, n1: int, n2: int, isLimited: bool)
    ensures CalculatePrice(basePrice, n1 + n2, isLimited).subtotal
         == CalculatePrice(basePrice, n1, isLimited).subtotal + CalculatePrice(basePrice, n2, isLimited).subtotal
    ensures CalculatePrice(basePrice, n1 + n2, isLimited).tax
         == CalculatePrice(basePrice, n1, isLimited).tax + CalculatePrice(basePrice, n2, isLimited).tax
    ensures CalculatePrice(basePrice, n1 + n2, isLimited).total
         == CalculatePrice(basePrice, n1, isLimited).total + CalculatePrice(basePrice, n2, isLimited).total
  {
    assert basePrice * (n1 + n2) == basePrice * n1 + basePrice * n2;
  }

  /** With a non-negative rate, more nights never cost less. */
  lemma PriceMonotoneInNights(basePrice: int, n1: int, n2: int, isLimited: bool)
    requires basePrice >= 0
    requires n1 <= n2
    ensures CalculatePrice(basePrice, n1, isLimited).total <= CalculatePrice(basePrice, n2, isLimited).total
  {
    PriceAdditive(basePrice, n1, n2 - n1, isLimited);
    assert basePrice * (n2 - n1) >= 0;
  }

  /** A limited stay is never cheaper than the same stay without the
      premium, and costs exactly 10% more. */
  lemma LimitedNeverCheaper(basePrice: int, nights: int)
    requires basePrice >= 0 && nights >= 0
    ensures CalculatePrice(basePrice, nights, true).total == CalculatePrice(basePrice, nights, false).total * 1.1
    ensures CalculatePrice(basePrice, nights, true).total >= CalculatePrice(basePrice, nights, false).total
  {
    assert basePrice * nights >= 0;
  }

  /** Display rounding (`Math.round`): halves round up. */
  function RoundHalfUp(x: real): (n: int)
    ensures x - 0.5 < n as real <= x + 0.5
  {
    (x + 0.5).Floor
  }

  /** Two nights at 65000 with no limited night: 130000 + 9750 = 139750. */
  lemma ScenarioStandard()
    ensures CalculatePrice(65000, 2, false) == Price(130000.0, 130000.0, 9750.0, 139750.0, 1.0)
  {
  }

  /** The same stay with a limited night: 143000 + 10725 = 153725. */
  lemma ScenarioLimited()
    ensures CalculatePrice(65000, 2, true) == Price(130000.0, 143000.0, 10725.0, 153725.0, 1.1)
    ensures RoundHalfUp(CalculatePrice(65000, 2, true).total) == 153725
  {
  }
}

=== FILE: storage.dfy ===
/** The saved booking: written with a timestamp on every save, read back
    only while younger than one hour, and merged over the current record
    field by field. */
module Storage {
  import opened Wrappers
  import opened Booking

  /** Age, in milliseconds, from which a saved booking is discarded. */
  const ExpiryMs: int := 3600000

  /** A parsed stored object: each field is present (`Some`) or missing.
      Keys the booking record does not have are ignored. */
  datatype StoredFields = StoredFields(
    roomType: Option<string>,
    basePrice: Option<int>,
    checkin: Option<Option<int>>,
    checkout: Option<Option<int>>,
    adults: Option<int>,
    children: Option<int>,
    nights: Option<int>,
    subtotal: Option<Option<real>>,
    totalPrice: Option<real>,
    tax: Option<real>,
    guestInfo: Option<GuestInfo>,
    paymentMethod: Option<PaymentMethod>,
    paymentStatus: Option<Option<PaymentStatus>>,
    bookingId: Option<Option<string>>,
    isPayLater: Option<bool>,
    transactionId: Option<Option<string>>)

  /** The stored entry: text that does not parse, or a parsed object with
      its timestamp (absent when the object has none). */
  datatype StoredEntry =
    | Malformed
    | Parsed(fields: StoredFields, timestamp: Option<int>)

  /** The key of a field the constructor never sets (`subtotal`,
      `transactionId`): written once the field has a value, left out of
      the JSON text while it is undefined. */
  function LaterKey<T>(v: Option<T>): (k: Option<Option<T>>)
    ensures k.Some? <==> v.Some?
    ensures k.Some? ==> k.value == v
  {
    if v.Some? then Some(v) else None
  }

  /** The keys of `b` as `JSON.stringify` writes them: every key the
      constructor sets (null values included), and `subtotal` and
      `transactionId` only once they are set. */
  function Fields(b: BookingData): StoredFields {
    StoredFields(
      Some(b.roomType), Some(b.basePrice), Some(b.checkin), Some(b.checkout),
      Some(b.adults), Some(b.children), Some(b.nights), LaterKey(b.subtotal),
      Some(b.totalPrice), Some(b.tax), Some(b.guestInfo), Some(b.paymentMethod),
      Some(b.paymentStatus), Some(b.bookingId), Some(b.isPayLater), LaterKey(b.transactionId))
  }

  /** Every key the record's constructor sets is present. */
  predicate HasConstructorKeys(f: StoredFields) {
    && f.roomType.Some? && f.basePrice.Some? && f.checkin.Some? && f.checkout.Some?
    && f.adults.Some? && f.children.Some? && f.nights.Some? && f.totalPrice.Some?
    && f.tax.Some? && f.guestInfo.Some? && f.paymentMethod.Some? && f.paymentStatus.Some?
    && f.bookingId.Some? && f.isPayLater.Some?
  }

  /** A stored object with no fields. */
  const NoFields: StoredFields := StoredFields(
    None, None, None, None, None, None, None, None, None, None, None, None, None, None, None, None)

  /** Saving writes the record's keys together with the current time:
      all constructor keys, the two later keys exactly when set, and
      merging the saved object back over the same record changes nothing. */
  function Save(b: BookingData, now: int): (e: StoredEntry)
    ensures e.Parsed? && e.timestamp == Some(now)
    ensures HasConstructorKeys(e.fields)
    ensures e.fields.subtotal.Some? <==> b.subtotal.Some?
    ensures e.fields.transactionId.Some? <==> b.transactionId.Some?
    ensures Merge(b, e.fields) == b
  {
    Parsed(Fields(b), Some(now))
  }

  /** The spread rule for one field: a present stored value wins, an
      absent one keeps the current value. */
  predicate Wins<T(==)>(stored: Option<T>, current: T, merged: T) {
    (stored.Some? ==> merged == stored.value) && (stored.None? ==> merged == current)
  }

  /** Object spread `{...b, ...f}`: every field present in `f` wins. */
  function Merge(b: BookingData, f: StoredFields): (m: BookingData)
    ensures f == NoFields ==> m == b
    ensures Wins(f.roomType, b.roomType, m.roomType)
    ensures Wins(f.basePrice, b.basePrice, m.basePrice)
    ensures Wins(f.checkin, b.checkin, m.checkin)
    ensures Wins(f.checkout, b.checkout, m.checkout)
    ensures Wins(f.adults, b.adults, m.adults)
    ensures Wins(f.children, b.children, m.children)
    ensures Wins(f.nights, b.nights, m.nights)
    ensures Wins(f.subtotal, b.subtotal, m.subtotal)
    ensures Wins(f.totalPrice, b.totalPrice, m.totalPrice)
    ensures Wins(f.tax, b.tax, m.tax)
    ensures Wins(f.guestInfo, b.guestInfo, m.guestInfo)
    ensures Wins(f.paymentMethod, b.paymentMethod, m.paymentMethod)
    ensures Wins(f.paymentStatus, b.paymentStatus, m.paymentStatus)
    ensures Wins(f.bookingId, b.bookingId, m.bookingId)
    ensures Wins(f.isPayLater, b.isPayLater, m.isPayLater)
    ensures Wins(f.transactionId, b.transactionId, m.transactionId)
  {
    BookingData(
      f.roomType.GetOr(b.roomType),
      f.basePrice.GetOr(b.basePrice),
      f.checkin.GetOr(b.checkin),
      f.checkout.GetOr(b.checkout),
      f.adults.GetOr(b.adults),
      f.children.GetOr(b.children),
      f.nights.GetOr(b.nights),
      f.subtotal.GetOr(b.subtotal),
      f.totalPrice.GetOr(b.totalPrice),
      f.tax.GetOr(b.tax),
      f.guestInfo.GetOr(b.guestInfo),
      f.paymentMethod.GetOr(b.paymentMethod),
      f.paymentStatus.GetOr(b.paymentStatus),
      f.bookingId.GetOr(b.bookingId),
      f.isPayLater.GetOr(b.isPayLater),
      f.transactionId.GetOr(b.transactionId))
  }

  /** A stored object is fresh when it has a timestamp less than one hour
      before `now`. A missing timestamp makes the age NaN, and NaN is not
      less than anything. */
  predicate Fresh(timestamp: Option<int>, now: int) {
    timestamp.Some? && now - timestamp.value < ExpiryMs
  }

  /** Loading: nothing stored or unparsable text leaves everything as it
      is; a fresh entry is merged over the record; a stale one is removed
      and the record is left as it is. */
  function Load(b: BookingData, stored: Option<StoredEntry>, now: int): (r: (BookingData, Option<StoredEntry>))
    ensures stored.None? || stored == Some(Malformed) ==> r == (b, stored)
    ensures stored.Some? && stored.value.Parsed? && Fresh(stored.value.timestamp, now) ==>
      r == (Merge(b, stored.value.fields), stored)
    ensures stored.Some? && stored.value.Parsed? && !Fresh(stored.value.timestamp, now) ==>
      r == (b, None)
  {
    match stored
    case None => (b, stored)
    case Some(Malformed) => (b, stored)
    case Some(Parsed(fields, timestamp)) =>
      if Fresh(timestamp, now) then (Merge(b, fields), stored) else (b, None)
  }

  /** What a reload of `b`'s saved form makes of the current record `d`:
      `b`, except that a subtotal or transaction ID `b` never had is kept
      from `d`, because the saved text has no such key. */
  function Overlay(d: BookingData, b: BookingData): BookingData {
    b.(subtotal := if b.subtotal.Some? then b.subtotal else d.subtotal,
       transactionId := if b.transactionId.Some? then b.transactionId else d.transactionId)
  }

  /** Merging a saved record over `d` gives the overlay of the two, which
      is the saved record itself exactly when `d` has no subtotal or
      transaction ID that the saved record lacks. */
  lemma MergeSavedRecord(d: BookingData, b: BookingData)
    ensures Merge(d, Fields(b)) == Overlay(d, b)
    ensures Merge(d, Fields(b)) == b <==>
      (b.subtotal.Some? || d.subtotal.None?) && (b.transactionId.Some? || d.transactionId.None?)
  {
  }

  /** A record saved before any price was computed does not clear the
      subtotal of the record it is loaded into. */
  lemma ReloadKeepsComputedSubtotal(d: BookingData, b: BookingData, savedAt: int, now: int)
    requires d.subtotal.Some? && b.subtotal.None?
    requires now - savedAt < ExpiryMs
    ensures Load(d, Some(Save(b, savedAt)), now).0.subtotal == d.subtotal
  {
    MergeSavedRecord(d, b);
  }

  /** Merging the same object twice is the same as merging it once. */
  lemma MergeIdempotent(b: BookingData, f: StoredFields)
    ensures Merge(Merge(b, f), f) == Merge(b, f)
  {
  }

  /** Save then load: within the hour the saved record comes back,
      overlaid on the current one, and the entry is kept; from one hour
      on the record is untouched and the entry is removed. */
  lemma SaveLoadRoundTrip(d: BookingData, b: BookingData, savedAt: int, now: int)
    ensures now - savedAt < ExpiryMs ==> Load(d, Some(Save(b, savedAt)), now) == (Overlay(d, b), Some(Save(b, savedAt)))
    ensures now - savedAt >= ExpiryMs ==> Load(d, Some(Save(b, savedAt)), now) == (d, None)
  {
    MergeSavedRecord(d, b);
  }

  /** Expiry boundary: 3599999 ms after saving still loads, 3600000 ms
      does not. */
  lemma ExpiryBoundary(d: BookingData, b: BookingData, savedAt: int)
    ensures Load(d, Some(Save(b, savedAt)), savedAt + 3599999).0 == Overlay(d, b)
    ensures Load(d, Some(Save(b, savedAt)), savedAt + 3600000) == (d, None)
  {
    MergeSavedRecord(d, b);
  }
}

=== FILE: wizard.dfy ===
/** The four-step booking wizard: Review (1), Guest Info (2), Payment (3),
    Confirmation (4). Each user action is a pure transition on the
    session; the clock, the payment outcome and the fresh booking ID are
    inputs. */
module Wizard {
  import opened Wrappers
  import opened Availability
  import opened Booking
  import opened Guest
  import opened Storage

  /** The session: current step, booking record, loaded availability and
      the shared stored entry. The step is not part of the record, so it
      is never saved or restored. */
  datatype Session = Session(step: int, data: BookingData, availability: Option<AvailabilityMap>, storage: Option<StoredEntry>)

  const FirstStep: int := 1
  const GuestStep: int := 2
  const PaymentStep: int := 3
  const LastStep: int := 4

  predicate ValidStep(step: int) {
    FirstStep <= step <= LastStep
  }

  /** The step after `step`: one more, except on the last step. */
  function Advance(step: int): (n: int)
    ensures ValidStep(step) ==> ValidStep(n)
    ensures n == step + 1 || (step >= LastStep && n == step)
  {
    if step < LastStep then step + 1 else step
  }

  /** The step before `step`: one less, except on the first step. */
  function Retreat(step: int): (n: int)
    ensures ValidStep(step) ==> ValidStep(n)
    ensures n == step - 1 || (step <= FirstStep && n == step)
  {
    if step > FirstStep then step - 1 else step
  }

  /** Forward one step, unless already on the last one; nothing but the
      step changes. */
  function NextStep(s: Session): (s': Session)
    ensures ValidStep(s.step) ==> ValidStep(s'.step)
    ensures s'.step == s.step + 1 || (s.step >= LastStep && s' == s)
    ensures s'.data == s.data && s'.availability == s.availability && s'.storage == s.storage
  {
    s.(step := Advance(s.step))
  }

  /** Back one step, unless already on the first one; nothing but the
      step changes. Confirmation is not exempt: from step 4 this goes
      back to step 3. */
  function PrevStep(s: Session): (s': Session)
    ensures ValidStep(s.step) ==> ValidStep(s'.step)
    ensures s'.step == s.step - 1 || (s.step <= FirstStep && s' == s)
    ensures s'.data == s.data && s'.availability == s.availability && s'.storage == s.storage
  {
    s.(step := Retreat(s.step))
  }

  /** Back undoes forward below the last step, and forward undoes back
      above the first. */
  lemma NavigationInverse(s: Session)
    requires ValidStep(s.step)
    ensures s.step < LastStep ==> PrevStep(NextStep(s)) == s
    ensures s.step > FirstStep ==> NextStep(PrevStep(s)) == s
  {
  }

  /** The guest details as stored: every field trimmed. */
  function TrimmedGuest(form: GuestForm): GuestInfo {
    GuestInfo(Trim(form.fullName), Trim(form.email), Trim(form.phone), Trim(form.specialRequests))
  }

  /** Submits the guest-details form, which exists only on step 2: on
      any other step the fields read as undefined, all three checks fail
      and nothing changes. On step 2 all three checks run; only when all
      pass are the details stored, the record saved and the step
      advanced. The field errors are returned either way. */
  function SubmitGuest(s: Session, form: GuestForm, now: int): (r: (Session, FieldErrors))
    ensures s.step != GuestStep ==> r == (s, FieldErrors(true, true, true))
    ensures s.step == GuestStep ==> r.1 == ValidateGuest(form)
    ensures !r.1.Ok() ==> r.0 == s
    ensures r.1.Ok() ==>
      && r.0.data == s.data.(guestInfo := TrimmedGuest(form))
      && r.0.storage == Some(Save(r.0.data, now))
      && r.0.step == PaymentStep
      && r.0.availability == s.availability
  {
    var errors := if s.step == GuestStep then ValidateGuest(form) else FieldErrors(true, true, true);
    if errors.Ok() then
      var data := s.data.(guestInfo := TrimmedGuest(form));
      (s.(data := data, storage := Some(Save(data, now)), step := PaymentStep), errors)
    else (s, errors)
  }

  /** The guest step accepts a form exactly when the name is not blank,
      the trimmed e-mail matches the pattern and the trimmed phone has at
      least ten characters; acceptance moves from step 2 to step 3, and a
      rejection changes nothing. */
  lemma GuestGate(s: Session, form: GuestForm, now: int)
    requires s.step == GuestStep
    ensures SubmitGuest(s, form, now).0.step == PaymentStep <==>
      !AllWhitespace(form.fullName) && EmailPattern(Trim(form.email)) && |Trim(form.phone)| >= MinPhoneLength
    ensures SubmitGuest(s, form, now).0.step == GuestStep <==> SubmitGuest(s, form, now).0 == s
  {
  }

  /** A blank name and an e-mail without '@' are both reported, a valid
      phone is not (on the guest step, where the form exists), and the
      wizard does not move. */
  lemma BlankNameAndBadEmailBothReported(s: Session, form: GuestForm, now: int)
    requires AllWhitespace(form.fullName)
    requires '@' !in form.email
    requires |Trim(form.phone)| >= MinPhoneLength
    ensures SubmitGuest(s, form, now).0 == s
    ensures s.step == GuestStep ==> SubmitGuest(s, form, now).1 == FieldErrors(true, true, false)
  {
    EmailWithoutAtRejected(form.email);
    assert ValidateGuest(form) == FieldErrors(true, true, false);
  }

  /** JavaScript truthiness of the booking ID: present and non-empty. */
  predicate HasBookingId(b: BookingData) {
    b.bookingId.Some? && b.bookingId.value != ""
  }

  /** What the simulated payment provider answers. */
  datatype PaymentOutcome = Approved(transactionId: string) | Declined

  /** Confirmation: save the record and go to step 4. Sending the e-mail
      has no effect on the state. */
  function CompleteBooking(s: Session, now: int): (s': Session)
    ensures s'.step == LastStep
    ensures s'.storage == Some(Save(s.data, now))
    ensures s'.data == s.data && s'.availability == s.availability
  {
    s.(storage := Some(Save(s.data, now)), step := LastStep)
  }

  /** The payment button, which exists only on step 3. A booking ID is
      assigned first unless one is already set. Pay-later reserves without
      paying; otherwise an approved payment marks the booking paid and a
      declined one leaves the session on step 3, keeping the ID. */
  function ProcessBooking(s: Session, freshId: string, outcome: PaymentOutcome, now: int): (s': Session)
    requires freshId != ""
    ensures s.step != PaymentStep ==> s' == s
    ensures s.step == PaymentStep ==>
      && HasBookingId(s'.data)
      && (HasBookingId(s.data) ==> s'.data.bookingId == s.data.bookingId)
      && (!HasBookingId(s.data) ==> s'.data.bookingId == Some(freshId))
    ensures s.step == PaymentStep && s.data.isPayLater ==>
      && s'.step == LastStep && s'.data.paymentStatus == Some(Pending) && s'.storage == Some(Save(s'.data, now))
      && s'.data == s.data.(bookingId := s'.data.bookingId, paymentStatus := Some(Pending))
      && s'.availability == s.availability
    ensures s.step == PaymentStep && !s.data.isPayLater && outcome.Approved? ==>
      && s'.step == LastStep && s'.data.paymentStatus == Some(Paid)
      && s'.data.transactionId == Some(outcome.transactionId)
      && s'.storage == Some(Save(s'.data, now))
      && s'.data == s.data.(bookingId := s'.data.bookingId, paymentStatus := Some(Paid),
                            transactionId := Some(outcome.transactionId))
      && s'.availability == s.availability
    ensures s.step == PaymentStep && !s.data.isPayLater && outcome.Declined? ==>
      s' == s.(data := s.data.(bookingId := s'.data.bookingId))
  {
    if s.step != PaymentStep then s
    else
      var data := if HasBookingId(s.data) then s.data else s.data.(bookingId := Some(freshId));
      if data.isPayLater then
        CompleteBooking(s.(data := data.(paymentStatus := Some(Pending))), now)
      else
        match outcome
        case Approved(txn) =>
          CompleteBooking(s.(data := data.(paymentStatus := Some(Paid), transactionId := Some(txn))), now)
        case Declined =>
          s.(data := data)
  }

  /** A retry after a declined payment keeps the ID from the first
      attempt, whatever ID the generator would produce next. */
  lemma RetryKeepsBookingId(s: Session, id1: string, id2: string, outcome: PaymentOutcome, now1: int, now2: int)
    requires id1 != "" && id2 != ""
    requires s.step == PaymentStep && !s.data.isPayLater
    ensures ProcessBooking(ProcessBooking(s, id1, Declined, now1), id2, outcome, now2).data.bookingId
         == ProcessBooking(s, id1, Declined, now1).data.bookingId
  {
  }

  /** Pay-later does not consult the payment provider: the outcome has no
      influence, and the booking ends up confirmed and pending. */
  lemma PayLaterIgnoresPayment(s: Session, id: string, o1: PaymentOutcome, o2: PaymentOutcome, now: int)
    requires id != ""
    requires s.step == PaymentStep && s.data.isPayLater
    ensures ProcessBooking(s, id, o1, now) == ProcessBooking(s, id, o2, now)
    ensures ProcessBooking(s, id, o1, now).data.paymentStatus == Some(Pending)
  {
  }

  /** Choosing a payment method: only the method changes. */
  function SelectPaymentMethod(s: Session, m: PaymentMethod): (s': Session)
    ensures s'.data.paymentMethod == m
    ensures s'.step == s.step && s'.availability == s.availability && s'.storage == s.storage
    ensures s'.data.(paymentMethod := s.data.paymentMethod) == s.data
  {
    s.(data := s.data.(paymentMethod := m))
  }

  /** The pay-later checkbox: only the flag changes, to its negation. */
  function TogglePayLater(s: Session): (s': Session)
    ensures s'.data.isPayLater == !s.data.isPayLater
    ensures s'.step == s.step && s'.availability == s.availability && s'.storage == s.storage
    ensures s'.data.(isPayLater := s.data.isPayLater) == s.data
  {
    s.(data := s.data.(isPayLater := !s.data.isPayLater))
  }

  /** Toggling pay-later twice restores the session. */
  lemma TogglePayLaterInvolution(s: Session)
    ensures TogglePayLater(TogglePayLater(s)) == s
  {
  }

  /** Another tab wrote `entry` to the shared storage; this tab reloads. */
  function StorageChanged(s: Session, entry: Option<StoredEntry>, now: int): (s': Session)
    ensures s'.step == s.step
    ensures s'.availability == s.availability
    ensures (s'.data, s'.storage) == Load(s.data, entry, now)
  {
    var loaded := Load(s.data, entry, now);
    s.(data := loaded.0, storage := loaded.1)
  }

  /** Everything a user, the clock or another tab can do to a session. */
  datatype Action =
    | Next
    | Prev
    | Submit(form: GuestForm, now: int)
    | SelectMethod(choice: PaymentMethod)
    | ToggleLater
    | Pay(freshId: string, outcome: PaymentOutcome, now: int)
    | Reload(entry: Option<StoredEntry>, now: int)

  /** The ID generator never produces an empty ID. */
  predicate WellFormedAction(a: Action) {
    a.Pay? ==> a.freshId != ""
  }

  function Apply(s: Session, a: Action): Session
    requires WellFormedAction(a)
  {
    match a
    case Next => NextStep(s)
    case Prev => PrevStep(s)
    case Submit(form, now) => SubmitGuest(s, form, now).0
    case SelectMethod(m) => SelectPaymentMethod(s, m)
    case ToggleLater => TogglePayLater(s)
    case Pay(id, outcome, now) => ProcessBooking(s, id, outcome, now)
    case Reload(entry, now) => StorageChanged(s, entry, now)
  }

  function Run(s: Session, actions: seq<Action>): Session
    requires forall k :: 0 <= k < |actions| ==> WellFormedAction(actions[k])
    decreases |actions|
  {
    if |actions| == 0 then s else Run(Apply(s, actions[0]), actions[1..])
  }

  /** Whatever happens, the step stays within 1..4. */
  lemma {:induction false} RunKeepsStepInRange(s: Session, actions: seq<Action>)
    requires ValidStep(s.step)
    requires forall k :: 0 <= k < |actions| ==> WellFormedAction(actions[k])
    ensures ValidStep(Run(s, actions).step)
    decreases |actions|
  {
    if |actions| > 0 {
      RunKeepsStepInRange(Apply(s, actions[0]), actions[1..]);
    }
  }

  /** A single action other than a reload keeps an assigned booking ID. */
  lemma ApplyKeepsBookingId(s: Session, a: Action)
    requires HasBookingId(s.data)
    requires WellFormedAction(a) && !a.Reload?
    ensures Apply(s, a).data.bookingId == s.data.bookingId
  {
    match a
    case Submit(form, now) =>
      assert SubmitGuest(s, form, now).0.data.bookingId == s.data.bookingId;
    case _ =>
  }

  /** Once assigned, the booking ID never changes through anything this
      tab does; only a reload from storage can replace it. */
  lemma {:induction false} RunKeepsBookingId(s: Session, actions: seq<Action>)
    requires HasBookingId(s.data)
    requires forall k :: 0 <= k < |actions| ==> WellFormedAction(actions[k]) && !actions[k].Reload?
    ensures Run(s, actions).data.bookingId == s.data.bookingId
    decreases |actions|
  {
    if |actions| > 0 {
      ApplyKeepsBookingId(s, actions[0]);
      RunKeepsBookingId(Apply(s, actions[0]), actions[1..]);
    }
  }

  /** A reload whose stored record carries a different ID replaces the
      one already assigned. */
  lemma ReloadCanReplaceBookingId(s: Session, other: BookingData, savedAt: int, now: int)
    requires HasBookingId(s.data) && HasBookingId(other)
    requires other.bookingId != s.data.bookingId
    requires now - savedAt < ExpiryMs
    ensures Apply(s, Reload(Some(Save(other, savedAt)), now)).data.bookingId != s.data.bookingId
  {
    MergeSavedRecord(s.data, other);
  }

  /** Query-string values already parsed; absent when not given. */
  datatype UrlParams = UrlParams(checkin: Option<int>, checkout: Option<int>, adults: Option<int>, children: Option<int>)

  /** Pre-fills the record from the query string: a given parameter
      replaces its field, an absent one keeps it, and no other field
      changes. */
  function ApplyUrl(b: BookingData, url: UrlParams): (r: BookingData)
    ensures url.checkin.Some? ==> r.checkin == url.checkin
    ensures url.checkin.None? ==> r.checkin == b.checkin
    ensures url.checkout.Some? ==> r.checkout == url.checkout
    ensures url.checkout.None? ==> r.checkout == b.checkout
    ensures url.adults.Some? ==> r.adults == url.adults.value
    ensures url.adults.None? ==> r.adults == b.adults
    ensures url.children.Some? ==> r.children == url.children.value
    ensures url.children.None? ==> r.children == b.children
    ensures r.(checkin := b.checkin, checkout := b.checkout, adults := b.adults, children := b.children) == b
  {
    b.(checkin := if url.checkin.Some? then url.checkin else b.checkin,
       checkout := if url.checkout.Some? then url.checkout else b.checkout,
       adults := url.adults.GetOr(b.adults),
       children := url.children.GetOr(b.children))
  }

  /** Session start: generate availability, restore a fresh saved booking,
      apply the query string, then derive nights and price. */
  method Init(today: int, todayDow: int, draws: seq<Draw>, stored: Option<StoredEntry>, now: int, url: UrlParams)
    returns (s: Session)
    requires |draws| == Horizon
    requires forall k :: 0 <= k < |draws| ==> ValidDraw(draws[k])
    ensures s.step == FirstStep
    ensures s.availability.Some?
    ensures forall d :: d in s.availability.value <==> today <= d < today + Horizon
    ensures forall k :: 0 <= k < Horizon ==> s.availability.value[today + k] == GeneratedDay(todayDow, k, draws[k])
    ensures s.storage == Load(DefaultBooking, stored, now).1
    ensures var b := Load(DefaultBooking, stored, now).0;
      && (url.checkin.Some? ==> s.data.checkin == url.checkin)
      && (url.checkin.None? ==> s.data.checkin == b.checkin)
      && (url.checkout.Some? ==> s.data.checkout == url.checkout)
      && (url.checkout.None? ==> s.data.checkout == b.checkout)
      && (url.adults.Some? ==> s.data.adults == url.adults.value)
      && (url.adults.None? ==> s.data.adults == b.adults)
      && (url.children.Some? ==> s.data.children == url.children.value)
      && (url.children.None? ==> s.data.children == b.children)
    ensures var b := Load(DefaultBooking, stored, now).0;
      s.data.(checkin := b.checkin, checkout := b.checkout, adults := b.adults, children := b.children,
              nights := b.nights, subtotal := b.subtotal, tax := b.tax, totalPrice := b.totalPrice) == b
    ensures var b := Load(DefaultBooking, stored, now).0;
      s.data.checkin.None? || s.data.checkout.None? ==>
        s.data.nights == b.nights && s.data.subtotal == b.subtotal && s.data.tax == b.tax && s.data.totalPrice == b.totalPrice
    ensures s.data.checkin.Some? && s.data.checkout.Some? ==>
      && s.data.nights == s.data.checkout.value - s.data.checkin.value
      && PricedAs(s.data, CheckRange(s.availability, s.data.checkin, s.data.checkout).IsLimited())
    ensures s.data.bookingId == Load(DefaultBooking, stored, now).0.bookingId
  {
    var avail := GenerateAvailability(today, todayDow, draws);
    var loaded := Load(DefaultBooking, stored, now);
    var data := ApplyUrl(loaded.0, url);
    var priced := CalculateNightsAndPrice(data, Some(avail));
    s := Session(FirstStep, priced, Some(avail), loaded.1);
  }
}

=== FILE: wrappers.dfy ===
/** Optional values: the model's stand-in for JavaScript's `null`/`undefined`. */
module Wrappers {

  datatype Option<+T> = None | Some(value: T) {

    /** The wrapped value, or `default` when absent. */
    function GetOr(default: T): T {
      match this
      case Some(v) => v
      case None => default
    }
  }
}
